=== FILE: README.md ===
# Dune dashboard data retrieval, modelled in Dafny

The tool takes the URL of a Dune dashboard and returns the data behind its
charts. It sends three kinds of POST requests to Dune's internal API. This
project models the logic between those requests (`main.py`):

- **`parse_dune_url`** checks the host and splits the URL path into the
  dashboard's handle and slug.
- **`process_visualization`** validates one visualization. It extracts the
  query id, the parameters, the decoded options and the output columns.
- **`fetch_dashboard_info` / `get_execution_id` / `fetch_chart_data`** build
  the request bodies and read the answers.
- **`get_dashboard_data`** loops over the dashboard's visualization widgets.
  It keeps one chart record for each widget that gets through every step.

Layout, one module per concern:

| file | module | contents |
|---|---|---|
| `wrappers.dfy` | `Wrappers` | `Option`, and `Result` for values that may raise |
| `text.dfy` | `Text` | Python's `in`, `strip`, `split` and `join` on strings |
| `json.dfy` | `PyJson` | decoded JSON values; truthiness, `dict.get`, subscripts, `keys()` |
| `dune_url.dfy` | `DuneUrl` | `parse_dune_url` |
| `visualization.dfy` | `Visualization` | `process_visualization` |
| `dune_api.dfy` | `DuneApi` | request bodies, reading the answers |
| `selection.dfy` | `Selection` | the widget loop's shape: an order-preserving filter-map that stops at the first exception |
| `dashboard.dfy` | `Dashboard` | chart records, the widget loop, `get_dashboard_data` |

Modelling choices:

- A JSON object is a sequence of key/value pairs in insertion order. It is read
  the way Python builds a dict from those pairs. A repeated key keeps its first
  position and its last value.
- Python truthiness is `PyJson.Truthy`. `None`, `False`, `0`, `""`, `[]` and
  `{}` are false.
- `run_curl_command` is the parameter `post: (string, Json) -> Json`. It takes
  an endpoint URL and a request body. `Null` stands for Python's `None`, which
  covers a failed `curl`, an unparsable answer and a literal JSON `null`.
- `json.loads` on a string `options` is the parameter
  `parse: string -> Option<Json>`. `None` means the string does not decode.
- An exception is an `Err(Fault)`. That covers `.get` or `.keys()` on a
  non-dict, a missing subscript key, and iterating something that is not a
  list. `get_dashboard_data` turns it into `Crash`, which stands for its
  `{"error": "Failed to process dashboard: ..."}` reply.

## Model

| member | source | states |
|---|---|---|
| `Text.Contains` | main.py:230 | `sub in s` holds exactly when some window of `s` spells `sub` |
| `Text.StripIsStrip` | main.py:233 | `strip('/')` gives a slice of the path that has only `/` around it and neither starts nor ends with `/` |
| `Text.StripUnique` | main.py:233 | that description fixes the stripped string uniquely |
| `Text.StripPadded` | main.py:233 | extra `/` before or after a path do not change its stripped form |
| `Text.Split` | main.py:233 | `split('/')` yields one more part than there are `/`, and no part contains `/` |
| `Text.JoinSplit` | main.py:233 | joining the parts of `split('/')` with `/` gives back the string |
| `Text.SplitJoin` | main.py:233 | splitting a `/`-join of `/`-free parts gives back the parts |
| `DuneUrl.ParseDuneUrl` | main.py:219-237 | rejects any host without `dune.com`; accepts exactly when the trimmed path has one `/`; on success the handle and slug are non-empty and `/`-free, and `handle + "/" + slug` is the trimmed path |
| `DuneUrl.ParseIgnoresOuterSlashes` | main.py:233 | paths that differ only in leading or trailing `/` parse the same |
| `DuneUrl.ParseCanonicalPath` | main.py:229-237 | parsing `/<handle>/<slug>` on a Dune host gives back the handle and slug |
| `PyJson.Lookup` | main.py:338 | a dict's value for a key is the one inserted last; a key never inserted has none |
| `PyJson.Get` | main.py:338-343 | `.get` works exactly on dicts; it returns the default for an absent key and the last-inserted value otherwise |
| `PyJson.Subscript` | main.py:270 | `d[k]` gives the bound value; raises KeyError on a dict without `k` and TypeError on any non-dict |
| `PyJson.First` | main.py:270 | `[0]` of a truthy list gives its first item; a dict raises KeyError; anything else raises TypeError, for a string the TypeError of the following `['node']`, since Python's `[0]` succeeds on a string |
| `PyJson.Keys` | main.py:367 | `keys()` lists every inserted key exactly once |
| `PyJson.KeysOfDistinct` | main.py:367 | for a dict written without repeated keys, `keys()` is its key column in insertion order |
| `PyJson.LookupAppend` | main.py:424-435 | pairs inserted later override exactly the keys they mention |
| `Visualization.ProcessVisualization` | main.py:325-369 | returns `None` exactly when the visualization, its `query_details` or its `query_id` is falsy; returns a tuple exactly when no guard fires and nothing raises; `parameters` defaults to `[]`; `columns` are the column mapping's keys in insertion order, empty when the mapping is absent or empty |
| `Visualization.DecodeOptions` | main.py:356-361 | a string `options` becomes its decoded value, or `{}` when it does not decode; other values pass unchanged |
| `Visualization.ColumnNames` | main.py:364-367 | columns are the mapping's keys when the mapping is a truthy dict and `[]` when it is falsy; a truthy non-dict raises |
| `Visualization.VizInfo` | main.py:349-353 | `viz_info` has exactly the keys `visualization_id`, `visualization_type` and `visualization_name`, bound to the visualization's `id`, `type` and `name`, or `None` when absent |
| `Visualization.UndecodableOptionsGiveNoColumns` | main.py:356-367 | an accepted visualization whose `options` string does not decode gets options `{}` and no columns |
| `DuneApi.DashboardRequestAsks` | main.py:250-259 | the `FindDashboard` body puts the slug under `variables.filters.slug.equals` and the handle under `variables.filters.handle.equals` |
| `DuneApi.FetchDashboardInfo` | main.py:239-270 | the node returned is what `DashboardNodeOf` reads from the GraphQL endpoint's answer to a request carrying this handle and slug |
| `DuneApi.ExecutionRequestAsks` | main.py:283-291 | the `GetLatestResultSetIds` body carries the query id, its parameters and `canRefresh: true` under `variables` |
| `DuneApi.GetExecutionId` | main.py:272-298 | the id returned is what `ExecutionIdOf` reads from the GraphQL endpoint's answer to a request carrying this query id and these parameters |
| `DuneApi.ChartRequestAsks` | main.py:313-319 | the rows body carries the execution id, the query id, the parameters, the output columns in order and a sample count of 8000 |
| `DuneApi.FetchChartData` | main.py:300-323 | the chart data is the execution endpoint's answer, unchanged, to a request carrying those fields |
| `DuneApi.DashboardNodeOf` | main.py:263-270 | no answer gives `None`; a truthy non-dict answer raises; a present non-dict `data` or `dashboards` (`null` included) raises; absent, `null`, empty or otherwise falsy `edges` give `None`; a truthy edge list gives its first item's `node`, raising when it has none; truthy edges that are not a list raise |
| `DuneApi.DashboardNodeIsSubscriptPath` | main.py:267-270 | a node that is found equals `response['data']['dashboards']['edges'][0]['node']` read with subscripts: the `.get` check and the subscripts agree |
| `DuneApi.DashboardNodeOfFound` | main.py:267-270 | the node of the first edge is the one returned, whatever other fields each level carries before or after the one read (so `__typename` after `node` and after `edges`, in the query's field order), as long as none after it rebinds that key, and whatever edges follow |
| `DuneApi.DashboardNodeOfNoEdges` | main.py:267-268 | an answer whose `edges` is absent, `null`, empty or otherwise falsy gives `None`, whatever else it carries |
| `DuneApi.ExecutionIdOf` | main.py:295-298 | no answer gives `None`; a truthy non-dict answer raises; a present non-dict `data` or `resultSetForQuery` (`null` included) raises; otherwise the result is `resultSetForQuery.get('completedExecutionId')`, `None` when any level is absent |
| `DuneApi.ExecutionIdOfAnswer` | main.py:298 | the `completedExecutionId` of a full result-set answer is the id returned |
| `Selection.FilterMap` | main.py:400-437 | the loop succeeds exactly when every pass succeeds; it keeps at most one value per input; on failure it reports the first failing pass |
| `Selection.FilterMapSelection` | main.py:400-437 | the kept values are an order-preserving selection: strictly increasing source positions, each value produced by its position, every kept position listed |
| `Dashboard.SucceededTail` | main.py:432-435 | the four result fields come from `execution_succeeded`, each defaulting when absent; a missing `total_row_count` is 0 |
| `Dashboard.ChartRecord` | main.py:424-435 | raises exactly on a non-dict `viz_info`, a non-dict chart answer or a truthy non-dict `execution_succeeded`; the record keeps `viz_info` first and binds `query_id` and `options`; it gains `columns`, `columns_metadata`, `data` and `total_row_count` only after a succeeded execution, with the row count 0 when missing |
| `Dashboard.ChartOf` | main.py:411-437 | nothing is charted exactly when the execution id or the chart answer is falsy and nothing raised; an exception from `get_execution_id` aborts the pass; with a truthy id and a truthy answer the pass appends exactly the chart record, or raises building it |
| `Dashboard.ChartFor` | main.py:402-437 | a widget is skipped exactly under the `continue` conditions; a non-dict widget raises AttributeError; an exception from `process_visualization` aborts the pass; a processed visualization gives exactly the outcome of the remaining steps for it |
| `Dashboard.Charts` | main.py:400-437 | the loop succeeds exactly when every widget's pass does, and yields at most one chart per widget |
| `Dashboard.Iterate` | main.py:402-403 | a list yields its items as the widgets; looping over a dict or a string yields strings, whose first `widget.get` raises AttributeError, reported here already; numbers and booleans raise TypeError |
| `Dashboard.Serve` | main.py:388-446 | "not found" exactly when the dashboard node is falsy; "no visualizations" exactly when the node's widget list is falsy; a truthy non-dict node, truthy non-list widgets, an exception in the loop, or a present `user` that is not a dict (`null` included) raise; otherwise the reply carries the node's name, slug and id, the user dict's `name`, and the loop's charts |
| `Dashboard.Respond` | main.py:382-451 | the `not handle or not slug` guard gives the invalid-URL reply; past it, the reply is what the dashboard steps return, and an exception they raise becomes the crash reply |
| `Dashboard.GetDashboardData` | main.py:382-386 | answers "invalid URL" exactly when `parse_dune_url` rejects the URL; the dashboard steps never produce that reply themselves |
| `Dashboard.GetDashboardDataServes` | main.py:382-451 | for a URL that parses, the answer is the dashboard steps' reply for the parsed handle and slug, or the crash reply when one of them raises |
| `Dashboard.ParsedUrlPassesGuard` | main.py:384-386 | the caller's `not handle or not slug` guard fires exactly when the parse failed |
| `Dashboard.ChartsSelection` | main.py:400-437 | the charts come from the widgets in order, and a widget contributes exactly when it is not skipped |
| `Dashboard.DashboardChartsSelection` | main.py:395-446 | a dashboard reply's charts are an order-preserving selection of the node's `visualizationWidgets`: one for each widget not skipped, and no more charts than widgets |

## Left out

- `run_curl_command` (main.py:157-217) is the `post` parameter. The `curl` command line, the headers and the cookie blob exist only to shell out.
- `post` is a pure function, so the same request always gets the same answer. Two widgets with the same query get identical execution ids here; over a real network the answers may differ.
- The GraphQL query texts and the cookie string (main.py:19-155) are opaque configuration. The modelled request bodies leave out their `"query"` member.
- `urlparse`: `ParseDuneUrl` takes the network location and the path it would produce.
- `Dashboard.GetDashboardData`: `urlparse` itself can raise inside the `try` (a ValueError on a malformed address such as `https://[dune.com/a/b`), which the source answers with the crash reply (main.py:384, main.py:450-451). The model starts from an already split address, so it never produces that reply for a URL.
- `json.loads` / `json.dumps` are not modelled. Decoding is the `parse` parameter. A reply is the structured `Reply` value, not its serialised text.
- `Crash` does not carry the text of `str(e)`, only which kind of exception was raised.
- JSON numbers are integers. Floats are not modelled; they matter only for truthiness.
- `PyJson.Keys`: when a dict is written with a repeated key, only membership and distinctness are stated, not the exact first-occurrence order. The exact order is stated for dicts without repeated keys (`PyJson.KeysOfDistinct`).
- The FastMCP server setup and `mcp.run()` (main.py:12-16, main.py:465), logging via `print`, and the `dotenv` and `pandas` imports are framework plumbing.

=== FILE: dashboard.dfy ===
/**
 * `get_dashboard_data(url)`: parse the address, find the dashboard, then for
 * every visualization widget in order look up the latest completed execution
 * of its query and fetch its rows, keeping one chart record per widget for
 * which all of that worked.
 *
 * Python's blanket `except` turns any exception into an error reply; here a
 * `Fault` travels in a `Result` up to `GetDashboardData`, which answers `Crash`.
 */
module Dashboard {
  import opened Wrappers
  import opened PyJson
  import opened DuneUrl
  import opened Visualization
  import opened DuneApi
  import opened Selection

  const InvalidUrlMessage := "Invalid Dune dashboard URL format"
  const NotFoundMessage := "Dashboard not found or access denied by Cloudflare."
  const NoVisualizationsMessage := "No visualizations found in dashboard"

  /** What `get_dashboard_data` hands to `json.dumps`. */
  datatype Reply =
    | ErrorReply(message: string)  // {"error": message}
    | Crash(fault: Fault)          // {"error": "Failed to process dashboard: ..."}
    | DashboardReply(              // {"dashboard_name", "dashboard_slug", "dashboard_id", "user", "charts"}
        name: Json,
        slug: Json,
        id: Json,
        user: Json,
        charts: seq<Json>)

  /** The keys every chart record starts with after the visualization's own. */
  const RecordKeys := ["query_id", "options"]

  /** The keys added when the chart answer reports `execution_succeeded`. */
  const SucceededKeys := ["columns", "columns_metadata", "data", "total_row_count"]

  /** `chart_data.get('execution_succeeded')` of a dict. */
  function Succeeded(chart: Json): Json
    requires chart.Obj?
  {
    ValueOr(chart.fields, "execution_succeeded", Null)
  }

  /** The pairs `{**viz_info, ...}` adds after the visualization's own. */
  function RecordTail(p: Processed): (tail: seq<(string, Json)>)
    ensures KeyColumn(tail) == RecordKeys && Distinct(KeyColumn(tail))
  {
    [("query_id", p.queryId), ("options", p.options)]
  }

  /** The pairs added from a succeeded execution, each defaulting when absent. */
  function SucceededTail(s: seq<(string, Json)>): (tail: seq<(string, Json)>)
    ensures KeyColumn(tail) == SucceededKeys
    ensures tail[0].1 == ValueOr(s, "columns", Arr([]))
    ensures tail[1].1 == ValueOr(s, "columns_metadata", Arr([]))
    ensures tail[2].1 == ValueOr(s, "data", Arr([]))
    ensures HasKey(s, "total_row_count") ==> LastBinding(s, "total_row_count", tail[3].1)
    ensures !HasKey(s, "total_row_count") ==> tail[3].1 == Num(0)
  {
    [
      ("columns", ValueOr(s, "columns", Arr([]))),
      ("columns_metadata", ValueOr(s, "columns_metadata", Arr([]))),
      ("data", ValueOr(s, "data", Arr([]))),
      ("total_row_count", ValueOr(s, "total_row_count", Num(0)))
    ]
  }

  /** The keys of a record built from the visualization info and the added pairs. */
  lemma RecordKeysAppend(a: seq<(string, Json)>, b: seq<(string, Json)>)
    ensures KeyColumn(a + b) == KeyColumn(a) + KeyColumn(b)
  {
  }

  /** The record of a succeeded execution: the visualization info, `query_id`, `options` and the four result fields. */
  function SucceededRecord(info: seq<(string, Json)>, p: Processed, s: seq<(string, Json)>): (fields: seq<(string, Json)>)
    ensures info <= fields
    ensures KeyColumn(fields) == KeyColumn(info) + RecordKeys + SucceededKeys
    ensures Lookup(fields, "query_id") == Some(p.queryId)
    ensures Lookup(fields, "options") == Some(p.options)
    ensures Lookup(fields, "columns") == Some(ValueOr(s, "columns", Arr([])))
    ensures Lookup(fields, "columns_metadata") == Some(ValueOr(s, "columns_metadata", Arr([])))
    ensures Lookup(fields, "data") == Some(ValueOr(s, "data", Arr([])))
    ensures Lookup(fields, "total_row_count") == Some(ValueOr(s, "total_row_count", Num(0)))
  {
    var tail := RecordTail(p) + SucceededTail(s);
    TailKeys(info, tail, p, s);
    TailLookups(info, tail, p, s);
    info + tail
  }

  /** The keys of the succeeded record: the visualization's own, then the six added ones. */
  lemma TailKeys(info: seq<(string, Json)>, tail: seq<(string, Json)>, p: Processed, s: seq<(string, Json)>)
    requires tail == RecordTail(p) + SucceededTail(s)
    ensures KeyColumn(info + tail) == KeyColumn(info) + RecordKeys + SucceededKeys
    ensures Distinct(KeyColumn(tail))
  {
    RecordKeysAppend(RecordTail(p), SucceededTail(s));
    RecordKeysAppend(info, tail);
    AddedKeysDistinct();
    assert KeyColumn(tail) == RecordKeys + SucceededKeys;
  }

  /** The bindings of the succeeded record, one per pair of its tail. */
  lemma TailLookups(info: seq<(string, Json)>, tail: seq<(string, Json)>, p: Processed, s: seq<(string, Json)>)
    requires tail == RecordTail(p) + SucceededTail(s)
    requires Distinct(KeyColumn(tail))
    ensures Lookup(info + tail, "query_id") == Some(p.queryId)
    ensures Lookup(info + tail, "options") == Some(p.options)
    ensures Lookup(info + tail, "columns") == Some(ValueOr(s, "columns", Arr([])))
    ensures Lookup(info + tail, "columns_metadata") == Some(ValueOr(s, "columns_metadata", Arr([])))
    ensures Lookup(info + tail, "data") == Some(ValueOr(s, "data", Arr([])))
    ensures Lookup(info + tail, "total_row_count") == Some(ValueOr(s, "total_row_count", Num(0)))
  {
    LookupTail(info, tail, 0);
    LookupTail(info, tail, 1);
    LookupTail(info, tail, 2);
    LookupTail(info, tail, 3);
    LookupTail(info, tail, 4);
    LookupTail(info, tail, 5);
  }

  /** The six keys a succeeded record adds are pairwise different. */
  lemma AddedKeysDistinct()
    ensures Distinct(RecordKeys + SucceededKeys)
  {
    assert RecordKeys + SucceededKeys == ["query_id", "options", "columns", "columns_metadata", "data", "total_row_count"];
  }

  /**
   * The chart record: `{**viz_info, "query_id": ..., "options": ...}`, extended
   * with the four result fields when the execution is reported as succeeded.
   */
  function ChartRecord(p: Processed, chart: Json): (r: Result<Json, Fault>)
    ensures r.Err? <==> !p.vizInfo.Obj? || !chart.Obj? || (Truthy(Succeeded(chart)) && !Succeeded(chart).Obj?)
    ensures r.Ok? ==> r.value.Obj?
    ensures r.Ok? ==> p.vizInfo.fields <= r.value.fields
    ensures r.Ok? ==> Lookup(r.value.fields, "query_id") == Some(p.queryId)
    ensures r.Ok? ==> Lookup(r.value.fields, "options") == Some(p.options)
    ensures r.Ok? && !Truthy(Succeeded(chart)) ==>
      KeyColumn(r.value.fields) == KeyColumn(p.vizInfo.fields) + RecordKeys
    ensures r.Ok? && Truthy(Succeeded(chart)) ==>
      KeyColumn(r.value.fields) == KeyColumn(p.vizInfo.fields) + RecordKeys + SucceededKeys
    ensures r.Ok? && Truthy(Succeeded(chart)) ==>
      var s := Succeeded(chart).fields;
      && Lookup(r.value.fields, "columns") == Some(ValueOr(s, "columns", Arr([])))
      && Lookup(r.value.fields, "columns_metadata") == Some(ValueOr(s, "columns_metadata", Arr([])))
      && Lookup(r.value.fields, "data") == Some(ValueOr(s, "data", Arr([])))
      && Lookup(r.value.fields, "total_row_count") == Some(ValueOr(s, "total_row_count", Num(0)))
    // a missing row count reads as 0
    ensures r.Ok? && Truthy(Succeeded(chart)) && !HasKey(Succeeded(chart).fields, "total_row_count") ==>
      Lookup(r.value.fields, "total_row_count") == Some(Num(0))
  {
    if !p.vizInfo.Obj? then Err(TypeError)      // `**` needs a mapping
    else if !chart.Obj? then Err(AttributeError)
    else
      var succeeded := Succeeded(chart);
      var info := p.vizInfo.fields;
      if !Truthy(succeeded) then
        var base := RecordTail(p);
        LookupTail(info, base, 0);
        LookupTail(info, base, 1);
        RecordKeysAppend(info, base);
        Ok(Obj(info + base))
      else if !succeeded.Obj? then Err(AttributeError)
      else Ok(Obj(SucceededRecord(info, p, succeeded.fields)))
  }

  /** `widget.get('visualization', {})` of a dict. */
  function VisualizationOf(widget: Json): Json
    requires widget.Obj?
  {
    ValueOr(widget.fields, "visualization", EmptyObj)
  }

  /**
   * Steps 4 and 5 give nothing to chart: the execution id is falsy, or the
   * chart answer is, without an exception on the way.
   */
  predicate NothingToChart(post: (string, Json) -> Json, p: Processed) {
    var e := GetExecutionId(post, p.queryId, p.parameters);
    && e.Ok?
    && (!Truthy(e.value) || !Truthy(FetchChartData(post, e.value, p.queryId, p.parameters, p.columns)))
  }

  /**
   * The `continue` conditions of the loop: the visualization is rejected, or
   * there is nothing to chart for it, all without an exception on the way.
   */
  predicate Skipped(post: (string, Json) -> Json, parse: string -> Option<Json>, widget: Json) {
    && widget.Obj?
    && var pv := ProcessVisualization(VisualizationOf(widget), parse);
      || pv == Ok(None)
      || (pv.Ok? && pv.value.Some? && NothingToChart(post, pv.value.value))
  }

  /** Steps 4 to 6 for one processed visualization: `None` for `continue`, the record otherwise. */
  function ChartOf(post: (string, Json) -> Json, p: Processed): (r: Result<Option<Json>, Fault>)
    ensures r == Ok(None) <==> NothingToChart(post, p)
    // an exception while asking for the execution id aborts the pass
    ensures GetExecutionId(post, p.queryId, p.parameters).Err? ==>
      r == Err(GetExecutionId(post, p.queryId, p.parameters).error)
    // with a truthy id and a truthy answer the pass appends the chart record, or raises building it
    ensures
      var e := GetExecutionId(post, p.queryId, p.parameters);
      e.Ok? && Truthy(e.value) && Truthy(FetchChartData(post, e.value, p.queryId, p.parameters, p.columns)) ==>
        var record := ChartRecord(p, FetchChartData(post, e.value, p.queryId, p.parameters, p.columns));
        && (record.Ok? ==> r == Ok(Some(record.value)))
        && (record.Err? ==> r == Err(record.error))
  {
    var executionId :- GetExecutionId(post, p.queryId, p.parameters);
    if !Truthy(executionId) then Ok(None)
    else
      var chart := FetchChartData(post, executionId, p.queryId, p.parameters, p.columns);
      if !Truthy(chart) then Ok(None)
      else
        var record :- ChartRecord(p, chart);
        Ok(Some(record))
  }

  /** One pass of the loop body: `None` for `continue`, the appended record otherwise. */
  function ChartFor(post: (string, Json) -> Json, parse: string -> Option<Json>, widget: Json): (r: Result<Option<Json>, Fault>)
    ensures r == Ok(None) <==> Skipped(post, parse, widget)
    ensures !widget.Obj? ==> r == Err(AttributeError)
    ensures r.Ok? && r.value.Some? ==>
      && widget.Obj?
      && var pv := ProcessVisualization(VisualizationOf(widget), parse);
        && pv.Ok? && pv.value.Some?
        && ChartOf(post, pv.value.value) == r
    ensures widget.Obj? ==>
      var pv := ProcessVisualization(VisualizationOf(widget), parse);
      && (pv.Err? ==> r == Err(pv.error))
      && (pv.Ok? && pv.value.Some? ==> r == ChartOf(post, pv.value.value))
  {
    var viz :- Get(widget, "visualization", EmptyObj);
    var processed :- ProcessVisualization(viz, parse);
    match processed
    case None => Ok(None)
    case Some(p) => ChartOf(post, p)
  }

  /**
   * The loop over the widgets: the records of the widgets that were not
   * skipped, in widget order; the first exception aborts the whole loop.
   */
  function Charts(post: (string, Json) -> Json, parse: string -> Option<Json>, widgets: seq<Json>): (r: Result<seq<Json>, Fault>)
    ensures r.Ok? <==> forall i :: 0 <= i < |widgets| ==> ChartFor(post, parse, widgets[i]).Ok?
    ensures r.Ok? ==> |r.value| <= |widgets|
  {
    FilterMap(w => ChartFor(post, parse, w), widgets)
  }

  /** `not handle or not slug` after `parse_dune_url`. */
  predicate GuardRejects(parsed: Option<(string, string)>) {
    parsed.None? || |parsed.value.0| == 0 || |parsed.value.1| == 0
  }

  /** How the loop's input is obtained: iterating a list yields its items; anything else raises. */
  function Iterate(widgets: Json): (r: Result<seq<Json>, Fault>)
    requires Truthy(widgets)
    ensures r.Ok? <==> widgets.Arr?
    ensures r.Ok? ==> r.value == widgets.items && |r.value| > 0
    ensures widgets.Obj? || widgets.Str? ==> r == Err(AttributeError)
    ensures widgets.Num? || widgets.Bool? ==> r == Err(TypeError)
  {
    match widgets
    case Arr(items) => Ok(items)
    case Obj(_) => Err(AttributeError)  // iterating a dict yields its keys, strings without `.get`
    case Str(_) => Err(AttributeError)  // iterating a string yields one-character strings
    case _ => Err(TypeError)            // numbers and booleans are not iterable
  }

  /** Everything after a successful parse, inside the `try`. */
  function Serve(post: (string, Json) -> Json, parse: string -> Option<Json>, handle: string, slug: string): (r: Result<Reply, Fault>)
    // where a dashboard reply comes from: a dict node, a non-empty widget list, and a loop that raised nothing
    ensures r.Ok? && r.value.DashboardReply? ==>
      && FetchDashboardInfo(post, handle, slug).Ok?
      && var node := FetchDashboardInfo(post, handle, slug).value;
        && node.Obj?
        && var widgets := ValueOr(node.fields, "visualizationWidgets", Arr([]));
          && widgets.Arr? && |widgets.items| > 0
          && Charts(post, parse, widgets.items) == Ok(r.value.charts)
    ensures r.Ok? && r.value.ErrorReply? ==> r.value.message in {NotFoundMessage, NoVisualizationsMessage}
    ensures r == Ok(ErrorReply(NotFoundMessage)) <==>
      FetchDashboardInfo(post, handle, slug).Ok? && !Truthy(FetchDashboardInfo(post, handle, slug).value)
    ensures r == Ok(ErrorReply(NoVisualizationsMessage)) <==>
      && FetchDashboardInfo(post, handle, slug).Ok?
      && var node := FetchDashboardInfo(post, handle, slug).value;
        node.Obj? && Truthy(node) && !Truthy(ValueOr(node.fields, "visualizationWidgets", Arr([])))
    // the exceptions on the way, each aborting with its own fault
    ensures FetchDashboardInfo(post, handle, slug).Err? ==> r == Err(FetchDashboardInfo(post, handle, slug).error)
    ensures
      var info := FetchDashboardInfo(post, handle, slug);
      info.Ok? && Truthy(info.value) && !info.value.Obj? ==> r == Err(AttributeError)
    ensures
      var info := FetchDashboardInfo(post, handle, slug);
      info.Ok? && info.value.Obj? && Truthy(info.value) ==>
        var node := info.value.fields;
        var widgets := ValueOr(node, "visualizationWidgets", Arr([]));
        && (Truthy(widgets) && !widgets.Arr? ==> r == Err(Iterate(widgets).error))
        && (Truthy(widgets) && widgets.Arr? && Charts(post, parse, widgets.items).Err? ==>
              r == Err(Charts(post, parse, widgets.items).error))
        // the loop finished: the reply, unless a present `user` is not a dict (`null` included)
        && (Truthy(widgets) && widgets.Arr? && Charts(post, parse, widgets.items).Ok? ==>
              var user := ValueOr(node, "user", EmptyObj);
              && (!user.Obj? ==> r == Err(AttributeError))
              && (user.Obj? ==> r == Ok(DashboardReply(
                    ValueOr(node, "name", Null),
                    ValueOr(node, "slug", Null),
                    ValueOr(node, "id", Null),
                    ValueOr(user.fields, "name", Null),
                    Charts(post, parse, widgets.items).value))))
  {
    var node :- FetchDashboardInfo(post, handle, slug);
    if !Truthy(node) then Ok(ErrorReply(NotFoundMessage))
    else
      var widgets :- Get(node, "visualizationWidgets", Arr([]));
      if !Truthy(widgets) then Ok(ErrorReply(NoVisualizationsMessage))
      else
        var items :- Iterate(widgets);
        var charts :- Charts(post, parse, items);
        // `node` is a dict from here on, so its own `.get` calls cannot raise
        var user := ValueOr(node.fields, "user", EmptyObj);
        var userName :- Get(user, "name", Null);
        Ok(DashboardReply(
          ValueOr(node.fields, "name", Null),
          ValueOr(node.fields, "slug", Null),
          ValueOr(node.fields, "id", Null),
          userName,
          charts))
  }

  /**
   * The caller's side of `get_dashboard_data`: the guard on the parsed URL,
   * then the dashboard steps inside the `try`, an exception becoming `Crash`.
   */
  function Respond(parsed: Option<(string, string)>, serve: (string, string) -> Result<Reply, Fault>): (r: Reply)
    ensures GuardRejects(parsed) ==> r == ErrorReply(InvalidUrlMessage)
    ensures !GuardRejects(parsed) && serve(parsed.value.0, parsed.value.1).Ok? ==>
      r == serve(parsed.value.0, parsed.value.1).value
    ensures !GuardRejects(parsed) && serve(parsed.value.0, parsed.value.1).Err? ==>
      r == Crash(serve(parsed.value.0, parsed.value.1).error)
  {
    if GuardRejects(parsed) then ErrorReply(InvalidUrlMessage)
    else
      match serve(parsed.value.0, parsed.value.1)
      case Ok(reply) => reply
      case Err(fault) => Crash(fault)
  }

  /**
   * `get_dashboard_data(url)`, with `urlparse(url)` already split into its
   * network location and path.
   */
  function GetDashboardData(post: (string, Json) -> Json, parse: string -> Option<Json>, netloc: string, path: string): (r: Reply)
    ensures r == ErrorReply(InvalidUrlMessage) <==> ParseDuneUrl(netloc, path).None?
  {
    Respond(ParseDuneUrl(netloc, path), (handle, slug) => Serve(post, parse, handle, slug))
  }

  /**
   * Past the URL check, the answer is what the dashboard steps give for the
   * parsed handle and slug, an exception among them becoming the crash reply.
   */
  lemma GetDashboardDataServes(post: (string, Json) -> Json, parse: string -> Option<Json>, netloc: string, path: string)
    ensures ParseDuneUrl(netloc, path).Some? ==>
      var parsed := ParseDuneUrl(netloc, path).value;
      var served := Serve(post, parse, parsed.0, parsed.1);
      GetDashboardData(post, parse, netloc, path) == if served.Ok? then served.value else Crash(served.error)
  {
  }

  /** A successful parse always gets past the caller's guard. */
  lemma ParsedUrlPassesGuard(netloc: string, path: string)
    ensures GuardRejects(ParseDuneUrl(netloc, path)) <==> ParseDuneUrl(netloc, path).None?
  {
  }

  /**
   * The charts are the records of the widgets that were not skipped, in
   * widget order: `idx` names, for each chart, the widget it came from, and
   * every widget that was not skipped appears in it.
   */
  lemma ChartsSelection(post: (string, Json) -> Json, parse: string -> Option<Json>, widgets: seq<Json>)
    returns (idx: seq<nat>)
    requires Charts(post, parse, widgets).Ok?
    ensures |idx| == |Charts(post, parse, widgets).value|
    ensures Increasing(idx)
    ensures forall k :: 0 <= k < |idx| ==>
      idx[k] < |widgets| && ChartFor(post, parse, widgets[idx[k]]) == Ok(Some(Charts(post, parse, widgets).value[k]))
    ensures forall i :: 0 <= i < |widgets| ==> (i in idx <==> !Skipped(post, parse, widgets[i]))
  {
    var step := w => ChartFor(post, parse, w);
    idx := FilterMapSelection(step, widgets);
    forall i | 0 <= i < |widgets|
      ensures i in idx <==> !Skipped(post, parse, widgets[i])
    {
      assert Kept(step, widgets, i) <==> !Skipped(post, parse, widgets[i]);
    }
  }

  /**
   * End to end: the charts of a dashboard reply come from the dashboard's
   * widgets in order, one for each widget that was not skipped.
   */
  lemma DashboardChartsSelection(post: (string, Json) -> Json, parse: string -> Option<Json>, netloc: string, path: string)
    returns (widgets: seq<Json>, idx: seq<nat>)
    ensures GetDashboardData(post, parse, netloc, path).DashboardReply? ==>
      && ParseDuneUrl(netloc, path).Some?
      && var parsed := ParseDuneUrl(netloc, path).value;
        var node := FetchDashboardInfo(post, parsed.0, parsed.1);
        node.Ok? && node.value.Obj? && ValueOr(node.value.fields, "visualizationWidgets", Arr([])) == Arr(widgets)
    ensures GetDashboardData(post, parse, netloc, path).DashboardReply? ==>
      var charts := GetDashboardData(post, parse, netloc, path).charts;
      && |charts| <= |widgets|
      && |idx| == |charts|
      && Increasing(idx)
      && (forall k :: 0 <= k < |idx| ==> idx[k] < |widgets| && ChartFor(post, parse, widgets[idx[k]]) == Ok(Some(charts[k])))
      && (forall i :: 0 <= i < |widgets| ==> (i in idx <==> !Skipped(post, parse, widgets[i])))
  {
    if GetDashboardData(post, parse, netloc, path).DashboardReply? {
      var parsed := ParseDuneUrl(netloc, path).value;
      var node := FetchDashboardInfo(post, parsed.0, parsed.1).value;
      widgets := ValueOr(node.fields, "visualizationWidgets", Arr([])).items;
      idx := ChartsSelection(post, parse, widgets);
    } else {
      widgets, idx := [], [];
    }
  }
}

=== FILE: dune_api.dfy ===
/**
 * The three requests the dashboard tool sends, and how it reads the answers:
 * `fetch_dashboard_info`, `get_execution_id` and `fetch_chart_data`.
 *
 * `run_curl_command` (a `curl` subprocess posting a JSON body) is the `post`
 * parameter: it maps an endpoint and a request body to the decoded answer,
 * `Null` standing for Python's `None`, which is what the source returns on any
 * transport or decoding failure and also what a literal JSON `null` decodes to.
 */
module DuneApi {
  import opened Wrappers
  import opened PyJson

  const GraphqlApi := "https://core-api.dune.com/public/graphql"
  const ExecutionApi := "https://core-api.dune.com/public/execution"

  /** Rows requested per chart (`"sampling": {"count": 8000}`). */
  const SampleCount := 8000

  /** A `FindDashboard` request filtering on exactly this slug and this handle. */
  predicate AsksForDashboard(request: Json, handle: string, slug: string) {
    && Path(request, ["operationName"]) == Ok(Str("FindDashboard"))
    && Path(request, ["variables", "filters", "slug", "equals"]) == Ok(Str(slug))
    && Path(request, ["variables", "filters", "handle", "equals"]) == Ok(Str(handle))
  }

  /** A `GetLatestResultSetIds` request for this query and these parameters, allowing a refresh. */
  predicate AsksForExecution(request: Json, queryId: Json, parameters: Json) {
    && Path(request, ["operationName"]) == Ok(Str("GetLatestResultSetIds"))
    && Path(request, ["variables", "queryId"]) == Ok(queryId)
    && Path(request, ["variables", "parameters"]) == Ok(parameters)
    && Path(request, ["variables", "canRefresh"]) == Ok(Bool(true))
  }

  /** A request for the rows of this execution: these columns in this order, at most `SampleCount` rows. */
  predicate AsksForRows(request: Json, executionId: Json, queryId: Json, parameters: Json, columns: seq<string>) {
    && Path(request, ["execution_id"]) == Ok(executionId)
    && Path(request, ["query_id"]) == Ok(queryId)
    && Path(request, ["parameters"]) == Ok(parameters)
    && Path(request, ["sampling", "count"]) == Ok(Num(SampleCount))
    && var listed := Path(request, ["output_columns"]);
      && listed.Ok? && listed.value.Arr? && |listed.value.items| == |columns|
      && forall i :: 0 <= i < |columns| ==> listed.value.items[i] == Str(columns[i])
  }

  /** The `FindDashboard` request for one handle and slug. */
  function DashboardRequest(handle: string, slug: string): Json {
    Obj([
      ("operationName", Str("FindDashboard")),
      ("variables", Obj([
        ("filters", Obj([
          ("slug", Obj([("equals", Str(slug))])),
          ("handle", Obj([("equals", Str(handle))]))
        ]))
      ]))
    ])
  }

  /** The `GetLatestResultSetIds` request for one query. */
  function ExecutionRequest(queryId: Json, parameters: Json): Json {
    Obj([
      ("operationName", Str("GetLatestResultSetIds")),
      ("variables", Obj([
        ("queryId", queryId),
        ("parameters", parameters),
        ("canRefresh", Bool(true))
      ]))
    ])
  }

  /** The request for the rows of one execution. */
  function ChartRequest(executionId: Json, queryId: Json, parameters: Json, columns: seq<string>): Json {
    Obj([
      ("execution_id", executionId),
      ("query_id", queryId),
      ("parameters", parameters),
      ("output_columns", Arr(seq(|columns|, i requires 0 <= i < |columns| => Str(columns[i])))),
      ("sampling", Obj([("count", Num(SampleCount))]))
    ])
  }

  /** The dashboard request carries the operation name and both filters, each where the server reads it. */
  lemma DashboardRequestAsks(handle: string, slug: string)
    ensures AsksForDashboard(DashboardRequest(handle, slug), handle, slug)
  {
    var request := DashboardRequest(handle, slug);
    assert KeyColumn(request.fields) == ["operationName", "variables"];
    PathAt(request.fields, 0);
    FilterPath(request, 0, slug);
    FilterPath(request, 1, handle);
  }

  /** `request['variables']['filters'][k]['equals']` for the `i`-th filter of the dashboard request. */
  lemma FilterPath(request: Json, i: int, value: string)
    requires request.Obj? && |request.fields| == 2 && KeyColumn(request.fields) == ["operationName", "variables"]
    requires request.fields[1].1.Obj? && |request.fields[1].1.fields| == 1
    requires var variables := request.fields[1].1.fields;
      && variables[0].0 == "filters" && variables[0].1.Obj?
      && var filters := variables[0].1.fields;
        && KeyColumn(filters) == ["slug", "handle"] && 0 <= i < 2
        && filters[i].1 == Obj([("equals", Str(value))])
    ensures Path(request, ["variables", "filters", ["slug", "handle"][i], "equals"]) == Ok(Str(value))
  {
    var variables := request.fields[1].1;
    var filters := variables.fields[0].1;
    var k := filters.fields[i].0;
    PathAt([("equals", Str(value))], 0);
    PathInto(filters.fields, i, ["equals"]);
    PathInto(variables.fields, 0, [k, "equals"]);
    PathInto(request.fields, 1, ["filters", k, "equals"]);
  }

  /** The execution request carries the operation name, the query, its parameters and the refresh flag. */
  lemma ExecutionRequestAsks(queryId: Json, parameters: Json)
    ensures AsksForExecution(ExecutionRequest(queryId, parameters), queryId, parameters)
  {
    var request := ExecutionRequest(queryId, parameters);
    ExecutionRequestKeys(queryId, parameters);
    PathAt(request.fields, 0);
    VariablePath(request, 0);
    VariablePath(request, 1);
    VariablePath(request, 2);
  }

  /** Neither level of the execution request repeats a key. */
  lemma ExecutionRequestKeys(queryId: Json, parameters: Json)
    ensures
      var request := ExecutionRequest(queryId, parameters);
      && Distinct(KeyColumn(request.fields))
      && Distinct(KeyColumn(request.fields[1].1.fields))
  {
    var request := ExecutionRequest(queryId, parameters);
    assert KeyColumn(request.fields) == ["operationName", "variables"];
    assert KeyColumn(request.fields[1].1.fields) == ["queryId", "parameters", "canRefresh"];
  }

  /** `request['variables'][k]` for the `i`-th variable of a request whose two levels repeat no key. */
  lemma VariablePath(request: Json, i: int)
    requires request.Obj? && |request.fields| == 2 && Distinct(KeyColumn(request.fields))
    requires request.fields[1].0 == "variables" && request.fields[1].1.Obj?
    requires Distinct(KeyColumn(request.fields[1].1.fields)) && 0 <= i < |request.fields[1].1.fields|
    ensures
      var variables := request.fields[1].1.fields;
      Path(request, ["variables", variables[i].0]) == Ok(variables[i].1)
  {
    var variables := request.fields[1].1.fields;
    PathAt(variables, i);
    PathInto(request.fields, 1, [variables[i].0]);
  }

  /** The rows request carries the execution, the query, its parameters, the columns in order and the row limit. */
  lemma ChartRequestAsks(executionId: Json, queryId: Json, parameters: Json, columns: seq<string>)
    ensures AsksForRows(ChartRequest(executionId, queryId, parameters, columns), executionId, queryId, parameters, columns)
  {
    var fields := ChartRequest(executionId, queryId, parameters, columns).fields;
    ChartRequestKeys(executionId, queryId, parameters, columns);
    PathAt(fields, 0);
    PathAt(fields, 1);
    PathAt(fields, 2);
    PathAt(fields, 3);
    PathAt(fields[4].1.fields, 0);
    PathInto(fields, 4, ["count"]);
  }

  /** The rows request repeats no key. */
  lemma ChartRequestKeys(executionId: Json, queryId: Json, parameters: Json, columns: seq<string>)
    ensures Distinct(KeyColumn(ChartRequest(executionId, queryId, parameters, columns).fields))
  {
    var fields := ChartRequest(executionId, queryId, parameters, columns).fields;
    assert KeyColumn(fields) == ["execution_id", "query_id", "parameters", "output_columns", "sampling"];
  }

  /**
   * The dashboard node inside a `FindDashboard` answer:
   * `response['data']['dashboards']['edges'][0]['node']`, with `Null` for
   * Python's `None` (no answer, or no edges).
   */
  function DashboardNodeOf(response: Json): (r: Result<Json, Fault>)
    ensures !Truthy(response) ==> r == Ok(Null)
    ensures Truthy(response) && !response.Obj? ==> r == Err(AttributeError)
    // level by level: a present non-dict `data` or `dashboards` (`null` included) raises
    // on the next `.get`; no edges means `None`; otherwise the first edge's `node`
    ensures response.Obj? && Truthy(response) ==>
      var data := ValueOr(response.fields, "data", EmptyObj);
      && (!data.Obj? ==> r == Err(AttributeError))
      && (data.Obj? ==>
        var dashboards := ValueOr(data.fields, "dashboards", EmptyObj);
        && (!dashboards.Obj? ==> r == Err(AttributeError))
        && (dashboards.Obj? ==>
          var edges := ValueOr(dashboards.fields, "edges", Null);
          && (!Truthy(edges) ==> r == Ok(Null))
          && (Truthy(edges) && edges.Arr? ==> r == Subscript(edges.items[0], "node"))
          && (Truthy(edges) && !edges.Arr? ==> r == Err(if edges.Obj? then KeyError else TypeError))))
  {
    if !Truthy(response) then Ok(Null)
    else
      var data :- Get(response, "data", EmptyObj);
      var dashboards :- Get(data, "dashboards", EmptyObj);
      var edges :- Get(dashboards, "edges", Null);
      if !Truthy(edges) then Ok(Null)
      else
        // `edges` is truthy, so `data` and `dashboards` were really present and
        // the subscripts `['data']['dashboards']['edges']` give back `edges`
        var first :- First(edges);
        Subscript(first, "node")
  }

  /**
   * A node that is found is `response['data']['dashboards']['edges'][0]['node']`
   * read with subscripts: once `edges` is truthy, every `.get` on the way found
   * its key, so the subscripts agree with it.
   */
  lemma DashboardNodeIsSubscriptPath(response: Json)
    ensures DashboardNodeOf(response).Ok? && DashboardNodeOf(response).value != Null ==>
      && Subscript(response, "data").Ok?
      && var data := Subscript(response, "data").value;
        && Subscript(data, "dashboards").Ok?
        && var dashboards := Subscript(data, "dashboards").value;
          && Subscript(dashboards, "edges").Ok?
          && var edges := Subscript(dashboards, "edges").value;
            && edges.Arr? && |edges.items| > 0
            && DashboardNodeOf(response) == Subscript(edges.items[0], "node")
  {
  }

  /** `fetch_dashboard_info(handle, slug)`. */
  function FetchDashboardInfo(post: (string, Json) -> Json, handle: string, slug: string): (r: Result<Json, Fault>)
    ensures exists request :: AsksForDashboard(request, handle, slug) && r == DashboardNodeOf(post(GraphqlApi, request))
  {
    DashboardRequestAsks(handle, slug);
    DashboardNodeOf(post(GraphqlApi, DashboardRequest(handle, slug)))
  }

  /** `response.get('data', {}).get('resultSetForQuery', {}).get('completedExecutionId')`, or `None` without an answer. */
  function ExecutionIdOf(response: Json): (r: Result<Json, Fault>)
    ensures !Truthy(response) ==> r == Ok(Null)
    ensures Truthy(response) && !response.Obj? ==> r == Err(AttributeError)
    // a present non-dict `data` or `resultSetForQuery` (`null` included) raises on the next `.get`
    ensures response.Obj? && Truthy(response) ==>
      var data := ValueOr(response.fields, "data", EmptyObj);
      && (!data.Obj? ==> r == Err(AttributeError))
      && (data.Obj? ==>
        var resultSet := ValueOr(data.fields, "resultSetForQuery", EmptyObj);
        && (!resultSet.Obj? ==> r == Err(AttributeError))
        && (resultSet.Obj? ==> r == Ok(ValueOr(resultSet.fields, "completedExecutionId", Null))))
  {
    if !Truthy(response) then Ok(Null)
    else
      var data :- Get(response, "data", EmptyObj);
      var resultSet :- Get(data, "resultSetForQuery", EmptyObj);
      Get(resultSet, "completedExecutionId", Null)
  }

  /** `get_execution_id(query_id, parameters)`. */
  function GetExecutionId(post: (string, Json) -> Json, queryId: Json, parameters: Json): (r: Result<Json, Fault>)
    ensures exists request :: AsksForExecution(request, queryId, parameters) && r == ExecutionIdOf(post(GraphqlApi, request))
  {
    ExecutionRequestAsks(queryId, parameters);
    ExecutionIdOf(post(GraphqlApi, ExecutionRequest(queryId, parameters)))
  }

  /** `fetch_chart_data(...)`: the answer as received. */
  function FetchChartData(post: (string, Json) -> Json, executionId: Json, queryId: Json, parameters: Json, columns: seq<string>): (r: Json)
    ensures exists request :: AsksForRows(request, executionId, queryId, parameters, columns) && r == post(ExecutionApi, request)
  {
    ChartRequestAsks(executionId, queryId, parameters, columns);
    post(ExecutionApi, ChartRequest(executionId, queryId, parameters, columns))
  }

  /**
   * A `FindDashboard` answer: `data` among the top level's other fields,
   * `dashboards` among `data`'s, and the given fields (`edges` among them, or
   * not) as the `dashboards` object. The siblings stand for anything else the
   * server sends at each level, such as `__typename`.
   */
  function DashboardAnswer(top: Siblings, data: Siblings, dashboards: seq<(string, Json)>): Json {
    Obj(Surround(top, "data", Obj(Surround(data, "dashboards", Obj(dashboards)))))
  }

  /** A `GetLatestResultSetIds` answer with all four fields of `resultSetForQuery`. */
  function ResultSetAnswer(completed: Json, failed: Json, pending: Json): Json {
    Obj([("data", Obj([("resultSetForQuery", Obj([
      ("completedExecutionId", completed),
      ("failedExecutionId", failed),
      ("pendingExecutionId", pending),
      ("__typename", Str("ResultSetForQuery"))
    ]))]))])
  }

  /**
   * Reading the node back out of an answer whose first edge binds it, whatever
   * other fields each level carries before or after the one read (none of the
   * later ones rebinding it), and whatever edges follow.
   */
  lemma DashboardNodeOfFound(top: Siblings, data: Siblings, dashboards: Siblings, edge: Siblings,
                             node: Json, otherEdges: seq<Json>)
    requires !HasKey(top.after, "data") && !HasKey(data.after, "dashboards")
    requires !HasKey(dashboards.after, "edges") && !HasKey(edge.after, "node")
    ensures
      var edges := Arr([Obj(Surround(edge, "node", node))] + otherEdges);
      DashboardNodeOf(DashboardAnswer(top, data, Surround(dashboards, "edges", edges))) == Ok(node)
  {
    var edges := Arr([Obj(Surround(edge, "node", node))] + otherEdges);
    var found := Obj(Surround(dashboards, "edges", edges));
    var inner := Obj(Surround(data, "dashboards", found));
    LookupSurrounded(top, "data", inner);
    LookupSurrounded(data, "dashboards", found);
    LookupSurrounded(dashboards, "edges", edges);
    LookupSurrounded(edge, "node", node);
    DashboardNodeOfLevels(Obj(Surround(top, "data", inner)), inner, found, edges);
  }

  /** Once the three levels are dicts and the edges a non-empty list, the node is the first edge's `node`. */
  lemma DashboardNodeOfLevels(response: Json, data: Json, dashboards: Json, edges: Json)
    requires response.Obj? && Lookup(response.fields, "data") == Some(data)
    requires data.Obj? && Lookup(data.fields, "dashboards") == Some(dashboards)
    requires dashboards.Obj? && Lookup(dashboards.fields, "edges") == Some(edges)
    requires edges.Arr? && |edges.items| > 0
    ensures DashboardNodeOf(response) == Subscript(edges.items[0], "node")
  {
  }

  /**
   * An answer whose `edges` is absent, `null`, empty or otherwise falsy means
   * no dashboard, whatever else it carries.
   */
  lemma DashboardNodeOfNoEdges(top: Siblings, data: Siblings, dashboards: seq<(string, Json)>)
    requires !HasKey(top.after, "data") && !HasKey(data.after, "dashboards")
    requires !Truthy(ValueOr(dashboards, "edges", Null))
    ensures DashboardNodeOf(DashboardAnswer(top, data, dashboards)) == Ok(Null)
  {
    LookupSurrounded(top, "data", Obj(Surround(data, "dashboards", Obj(dashboards))));
    LookupSurrounded(data, "dashboards", Obj(dashboards));
  }

  /** Reading the completed execution id back out of a full answer. */
  lemma ExecutionIdOfAnswer(completed: Json, failed: Json, pending: Json)
    ensures ExecutionIdOf(ResultSetAnswer(completed, failed, pending)) == Ok(completed)
  {
    var response := ResultSetAnswer(completed, failed, pending);
    var inner := response.fields[0].1.fields[0].1.fields;
    assert KeyColumn(inner) == ["completedExecutionId", "failedExecutionId", "pendingExecutionId", "__typename"];
    LookupAt(inner, 0);
    ExecutionIdOfNested(response, response.fields[0].1, response.fields[0].1.fields[0].1);
  }

  /** The three levels of a `GetLatestResultSetIds` answer, each a dict with one key. */
  lemma ExecutionIdOfNested(response: Json, data: Json, resultSet: Json)
    requires response == Obj([("data", data)])
    requires data == Obj([("resultSetForQuery", resultSet)])
    requires resultSet.Obj?
    ensures ExecutionIdOf(response) == Ok(ValueOr(resultSet.fields, "completedExecutionId", Null))
  {
  }
}

=== FILE: dune_url.dfy ===
/**
 * `parse_dune_url`: accepts a dashboard address of the form
 * `https://<host containing dune.com>/<handle>/<slug>` and splits out the
 * handle and the slug. `urlparse` is not modelled: the network location and
 * the path it would produce are the inputs.
 */
module DuneUrl {
  import opened Wrappers
  import opened Text

  const DuneHost := "dune.com"

  /** One path segment that the caller's `not handle or not slug` guard lets through. */
  predicate Segment(x: string) {
    |x| > 0 && '/' !in x
  }

  /** The path with its leading and trailing `/` removed. */
  function Trimmed(path: string): string {
    Strip(path, '/')
  }

  /**
   * `(handle, slug)`, or `None` for Python's `(None, None)`: the host must
   * contain `dune.com` and the trimmed path must hold exactly one `/`.
   */
  function ParseDuneUrl(netloc: string, path: string): (r: Option<(string, string)>)
    ensures r.Some? <==> Contains(netloc, DuneHost) && Count(Trimmed(path), '/') == 1
    ensures r.Some? ==> Segment(r.value.0) && Segment(r.value.1)
    ensures r.Some? ==> r.value.0 + "/" + r.value.1 == Trimmed(path)
  {
    if !Contains(netloc, DuneHost) then None
    else
      var trimmed := Trimmed(path);
      StripIsStrip(path, '/');
      var parts := Split(trimmed, '/');
      if |parts| != 2 then None
      else
        JoinSplit(trimmed, '/');
        assert Join(parts[1..], '/') == parts[1];
        assert trimmed == parts[0] + "/" + parts[1];
        // The separator is neither the first nor the last character of `trimmed`.
        assert trimmed[|parts[0]|] == '/';
        assert trimmed[0] != '/' && trimmed[|trimmed| - 1] != '/';
        Some((parts[0], parts[1]))
  }

  /** Slashes added before or after the path do not change the outcome. */
  lemma ParseIgnoresOuterSlashes(netloc: string, path: string, k: nat, m: nat)
    ensures ParseDuneUrl(netloc, Repeat('/', k) + path + Repeat('/', m)) == ParseDuneUrl(netloc, path)
  {
    StripPadded(path, '/', k, m);
  }

  /** Leading `/` and a separator-free handle and slug: trimming leaves `handle/slug`. */
  lemma TrimmedCanonical(handle: string, slug: string)
    requires Segment(handle) && Segment(slug)
    ensures Trimmed("/" + handle + "/" + slug) == handle + "/" + slug
  {
    var inner := handle + "/" + slug;
    var first, last := handle[0], slug[|slug| - 1];
    assert first in handle && last in slug;
    assert inner[0] == first && inner[|inner| - 1] == last;
    var path := "/" + handle + "/" + slug;
    assert OccursAt(inner, inner, 0) && inner[..0] == [] && inner[|inner|..] == [];
    assert IsStripOf(inner, '/', inner);
    IsStripOfPadLeft(inner, '/', inner, "/", path);
    StripIsStrip(path, '/');
    StripUnique(path, '/', Strip(path, '/'), inner);
  }

  /** `handle/slug` splits back into its two segments. */
  lemma SplitCanonical(handle: string, slug: string)
    requires Segment(handle) && Segment(slug)
    ensures Split(handle + "/" + slug, '/') == [handle, slug]
  {
    assert Join([handle, slug], '/') == handle + "/" + slug by {
      assert [handle, slug][1..] == [slug];
    }
    SplitJoin([handle, slug], '/');
  }

  /** Parsing the canonical path of a dashboard gives back its handle and slug. */
  lemma ParseCanonicalPath(netloc: string, handle: string, slug: string)
    requires Contains(netloc, DuneHost)
    requires Segment(handle) && Segment(slug)
    ensures ParseDuneUrl(netloc, "/" + handle + "/" + slug) == Some((handle, slug))
  {
    TrimmedCanonical(handle, slug);
    SplitCanonical(handle, slug);
  }
}

=== FILE: json.dfy ===
/**
 * The Python values produced by `json.loads`, and the handful of Python
 * operations the dashboard code applies to them: truth testing, `dict.get`,
 * subscripting and `dict.keys()`.
 *
 * An object is kept as the sequence of key/value pairs in the order they were
 * inserted. Read as a Python dict built by inserting the pairs one by one, a
 * repeated key keeps the position of its first insertion and the value of its
 * last one; `Lookup` and `Keys` implement exactly that reading.
 */
module PyJson {
  import opened Wrappers

  datatype Json =
    | Null                              // None
    | Bool(b: bool)
    | Num(n: int)                       // int (floats are not modelled)
    | Str(s: string)
    | Arr(items: seq<Json>)             // list
    | Obj(fields: seq<(string, Json)>)  // dict, in insertion order

  /** The Python exceptions the dashboard code can raise on a value of the wrong shape. */
  datatype Fault =
    | AttributeError  // `.get` or `.keys` on something that is not a dict
    | KeyError        // `d[k]` with `k` absent
    | TypeError       // subscript or iteration on a value that does not support it

  const EmptyObj: Json := Obj([])

  /** Python truth value: None, False, 0, "", [] and {} are false, everything else is true. */
  predicate Truthy(j: Json) {
    match j
    case Null => false
    case Bool(b) => b
    case Num(n) => n != 0
    case Str(s) => |s| > 0
    case Arr(items) => |items| > 0
    case Obj(fields) => |fields| > 0
  }

  /** `k` was inserted into the dict at some point. */
  predicate HasKey(fields: seq<(string, Json)>, k: string) {
    exists i :: 0 <= i < |fields| && fields[i].0 == k
  }

  /** `(k, v)` is the last insertion of `k`. */
  predicate LastBinding(fields: seq<(string, Json)>, k: string, v: Json) {
    exists i :: 0 <= i < |fields| && fields[i] == (k, v) && !HasKey(fields[i + 1..], k)
  }

  /** The value a dict holds under `k`, if any: the one inserted last. */
  function Lookup(fields: seq<(string, Json)>, k: string): (r: Option<Json>)
    ensures r.None? <==> !HasKey(fields, k)
    ensures r.Some? ==> LastBinding(fields, k, r.value)
    decreases |fields|
  {
    if |fields| == 0 then None
    else
      var n := |fields| - 1;
      if fields[n].0 == k then
        assert fields[n + 1..] == [];
        Some(fields[n].1)
      else
        var r := Lookup(fields[..n], k);
        assert HasKey(fields, k) ==> HasKey(fields[..n], k) by {
          if HasKey(fields, k) {
            var i :| 0 <= i < |fields| && fields[i].0 == k;
            assert fields[..n][i].0 == k;
          }
        }
        assert r.Some? ==> LastBinding(fields, k, r.value) by {
          if r.Some? {
            var i :| 0 <= i < n && fields[..n][i] == (k, r.value) && !HasKey(fields[..n][i + 1..], k);
            assert fields[i + 1..] == fields[..n][i + 1..] + [fields[n]];
          }
        }
        r
  }

  /** The value `d.get(k, default)` returns for a dict `d`. */
  function ValueOr(fields: seq<(string, Json)>, k: string, default: Json): Json {
    match Lookup(fields, k)
    case Some(v) => v
    case None => default
  }

  /** `j.get(k, default)`: defined on dicts only; any other receiver raises. */
  function Get(j: Json, k: string, default: Json): (r: Result<Json, Fault>)
    ensures r.Ok? <==> j.Obj?
    ensures j.Obj? && !HasKey(j.fields, k) ==> r == Ok(default)
    ensures r.Ok? && HasKey(j.fields, k) ==> LastBinding(j.fields, k, r.value)
  {
    if j.Obj? then Ok(ValueOr(j.fields, k, default)) else Err(AttributeError)
  }

  /** `j[k]` for a string key: a dict without `k` raises KeyError, a non-dict raises TypeError. */
  function Subscript(j: Json, k: string): (r: Result<Json, Fault>)
    ensures r.Ok? <==> j.Obj? && HasKey(j.fields, k)
    ensures r.Ok? ==> LastBinding(j.fields, k, r.value)
    ensures r == Err(KeyError) <==> j.Obj? && !HasKey(j.fields, k)
    ensures !j.Obj? ==> r == Err(TypeError)
  {
    if !j.Obj? then Err(TypeError)
    else
      match Lookup(j.fields, k)
      case Some(v) => Ok(v)
      case None => Err(KeyError)
  }

  /** `j[k1][k2]...`: the subscripts applied in turn, the first one that raises deciding the fault. */
  function Path(j: Json, keys: seq<string>): Result<Json, Fault>
    decreases |keys|
  {
    if keys == [] then Ok(j)
    else
      var v :- Subscript(j, keys[0]);
      Path(v, keys[1..])
  }

  /** The first step of a path through a dict that binds its key. */
  lemma PathStep(j: Json, k: string, rest: seq<string>, v: Json)
    requires j.Obj? && Lookup(j.fields, k) == Some(v)
    ensures Path(j, [k] + rest) == Path(v, rest)
  {
    assert ([k] + rest)[1..] == rest;
  }

  /** The first step of a path through a dict written without repeated keys, by position. */
  lemma PathInto(fields: seq<(string, Json)>, i: int, rest: seq<string>)
    requires Distinct(KeyColumn(fields)) && 0 <= i < |fields|
    ensures Path(Obj(fields), [fields[i].0] + rest) == Path(fields[i].1, rest)
  {
    LookupAt(fields, i);
    PathStep(Obj(fields), fields[i].0, rest, fields[i].1);
  }

  /** A one-key path through a dict written without repeated keys. */
  lemma PathAt(fields: seq<(string, Json)>, i: int)
    requires Distinct(KeyColumn(fields)) && 0 <= i < |fields|
    ensures Path(Obj(fields), [fields[i].0]) == Ok(fields[i].1)
  {
    PathInto(fields, i, []);
    assert [fields[i].0] + [] == [fields[i].0];
  }

  /**
   * `j[0]` for a value already known to be truthy, as the first step of
   * `j[0][name]`. On a string Python's `j[0]` succeeds with its first
   * character, and subscripting that character by a name raises TypeError;
   * that TypeError is reported here already, so only a list gives `Ok`.
   */
  function First(j: Json): (r: Result<Json, Fault>)
    requires Truthy(j)
    ensures r.Ok? <==> j.Arr?
    ensures r.Ok? ==> r.value == j.items[0]
    ensures j.Obj? ==> r == Err(KeyError)
    ensures !j.Obj? && !j.Arr? ==> r == Err(TypeError)
  {
    match j
    case Arr(items) => Ok(items[0])
    case Obj(_) => Err(KeyError)  // JSON keys are strings, never the integer 0
    case Str(_) => Err(TypeError) // a one-character string, which the caller then subscripts by a name
    case _ => Err(TypeError)
  }

  /** `list(d.keys())`: each key once, in the order of its first insertion. */
  function Keys(fields: seq<(string, Json)>): (ks: seq<string>)
    ensures forall k :: k in ks <==> HasKey(fields, k)
    ensures Distinct(ks)
    decreases |fields|
  {
    if |fields| == 0 then []
    else
      var n := |fields| - 1;
      var ks := Keys(fields[..n]);
      assert forall k :: HasKey(fields, k) <==> HasKey(fields[..n], k) || fields[n].0 == k by {
        forall k
          ensures HasKey(fields, k) <==> HasKey(fields[..n], k) || fields[n].0 == k
        {
          if HasKey(fields[..n], k) {
            var i :| 0 <= i < n && fields[..n][i].0 == k;
            assert fields[i].0 == k;
          }
          if HasKey(fields, k) && fields[n].0 != k {
            var i :| 0 <= i < |fields| && fields[i].0 == k;
            assert fields[..n][i].0 == k;
          }
        }
      }
      if fields[n].0 in ks then ks else ks + [fields[n].0]
  }

  /** No element occurs twice. */
  predicate Distinct<T(==)>(xs: seq<T>) {
    forall i, j :: 0 <= i < j < |xs| ==> xs[i] != xs[j]
  }

  /** The keys of the pairs, one per pair, duplicates included. */
  function KeyColumn(fields: seq<(string, Json)>): (ks: seq<string>)
    ensures |ks| == |fields| && forall i :: 0 <= i < |fields| ==> ks[i] == fields[i].0
  {
    seq(|fields|, i requires 0 <= i < |fields| => fields[i].0)
  }

  /** For a dict written without repeated keys, `keys()` lists every pair's key in order. */
  lemma {:induction false} KeysOfDistinct(fields: seq<(string, Json)>)
    requires Distinct(KeyColumn(fields))
    ensures Keys(fields) == KeyColumn(fields)
    decreases |fields|
  {
    if |fields| > 0 {
      var n := |fields| - 1;
      assert KeyColumn(fields[..n]) == KeyColumn(fields)[..n];
      KeysOfDistinct(fields[..n]);
      assert fields[n].0 !in KeyColumn(fields)[..n];
      assert KeyColumn(fields) == KeyColumn(fields)[..n] + [fields[n].0];
    }
  }

  /** In a dict written without repeated keys, each pair is the binding of its key. */
  lemma LookupAt(fields: seq<(string, Json)>, i: int)
    requires Distinct(KeyColumn(fields)) && 0 <= i < |fields|
    ensures Lookup(fields, fields[i].0) == Some(fields[i].1)
  {
    var j := LookupIndex(fields, fields[i].0, i);
    KeyIndexUnique(fields, i, j);
  }

  /** A bound key is found at some position holding it. */
  lemma LookupIndex(fields: seq<(string, Json)>, k: string, i: int) returns (j: int)
    requires 0 <= i < |fields| && fields[i].0 == k
    ensures 0 <= j < |fields| && fields[j].0 == k && Lookup(fields, k) == Some(fields[j].1)
  {
    assert HasKey(fields, k);
    var r := Lookup(fields, k);
    j :| 0 <= j < |fields| && fields[j] == (k, r.value) && !HasKey(fields[j + 1..], k);
  }

  /** In a dict written without repeated keys, a key names one position. */
  lemma KeyIndexUnique(fields: seq<(string, Json)>, i: int, j: int)
    requires Distinct(KeyColumn(fields)) && 0 <= i < |fields| && 0 <= j < |fields|
    requires fields[i].0 == fields[j].0
    ensures i == j
  {
    var ks := KeyColumn(fields);
    assert ks[i] == ks[j];
  }

  /** Pairs inserted later take over exactly the keys they mention. */
  lemma {:induction false} LookupAppend(front: seq<(string, Json)>, back: seq<(string, Json)>, k: string)
    ensures Lookup(front + back, k) == if HasKey(back, k) then Lookup(back, k) else Lookup(front, k)
    decreases |back|
  {
    if |back| > 0 {
      var n := |back| - 1;
      var whole := front + back;
      assert whole[..|whole| - 1] == front + back[..n];
      assert whole[|whole| - 1] == back[n];
      LookupAppend(front, back[..n], k);
      LookupLast(whole, k);
      LookupLast(back, k);
      HasKeyLast(back, k);
    } else {
      assert front + back == front;
    }
  }

  /** `Lookup` reads the last pair first. */
  lemma LookupLast(fields: seq<(string, Json)>, k: string)
    requires |fields| > 0
    ensures Lookup(fields, k) == if fields[|fields| - 1].0 == k then Some(fields[|fields| - 1].1)
                                 else Lookup(fields[..|fields| - 1], k)
  {
  }

  /** A key is bound in a non-empty dict iff the last pair or an earlier one binds it. */
  lemma HasKeyLast(fields: seq<(string, Json)>, k: string)
    requires |fields| > 0
    ensures HasKey(fields, k) <==> fields[|fields| - 1].0 == k || HasKey(fields[..|fields| - 1], k)
  {
    var n := |fields| - 1;
    if HasKey(fields, k) && fields[n].0 != k {
      var i :| 0 <= i < |fields| && fields[i].0 == k;
      assert fields[..n][i].0 == k;
    }
    if HasKey(fields[..n], k) {
      var i :| 0 <= i < n && fields[..n][i].0 == k;
      assert fields[i].0 == k;
    }
  }

  /** A key written once among the last pairs inserted is bound to its value there. */
  lemma LookupTail(front: seq<(string, Json)>, back: seq<(string, Json)>, i: int)
    requires Distinct(KeyColumn(back)) && 0 <= i < |back|
    ensures Lookup(front + back, back[i].0) == Some(back[i].1)
  {
    assert HasKey(back, back[i].0);
    LookupAppend(front, back, back[i].0);
    LookupAt(back, i);
  }

  /** The other fields of a dict around one binding: those inserted before it and those inserted after it. */
  datatype Siblings = Siblings(before: seq<(string, Json)>, after: seq<(string, Json)>)

  /** The fields of a dict binding `k` to `v` among the siblings. */
  function Surround(around: Siblings, k: string, v: Json): seq<(string, Json)> {
    around.before + [(k, v)] + around.after
  }

  /** Whatever comes before, a binding that no later sibling overrides is the one a lookup finds. */
  lemma LookupSurrounded(around: Siblings, k: string, v: Json)
    requires !HasKey(around.after, k)
    ensures Lookup(Surround(around, k, v), k) == Some(v)
  {
    LookupAppend(around.before + [(k, v)], around.after, k);
    LookupLast(around.before + [(k, v)], k);
  }
}

=== FILE: selection.dfy ===
/**
 * The shape of the widget loop, independent of what one pass does: run a
 * step over a sequence in order, keep the values of the passes that produce
 * one, skip the others, and stop at the first exception.
 */
module Selection {
  import opened Wrappers

  /** `i` is the first position whose step raises. */
  predicate FirstFailure<T, U, E>(step: T -> Result<Option<U>, E>, xs: seq<T>, i: int) {
    && 0 <= i < |xs|
    && step(xs[i]).Err?
    && forall j :: 0 <= j < i ==> step(xs[j]).Ok?
  }

  /** The pass at `i` produced a value, which the loop keeps. */
  predicate Kept<T, U, E>(step: T -> Result<Option<U>, E>, xs: seq<T>, i: int) {
    0 <= i < |xs| && step(xs[i]).Ok? && step(xs[i]).value.Some?
  }

  /** Indices strictly increase. */
  predicate Increasing(idx: seq<nat>) {
    forall k, l :: 0 <= k < l < |idx| ==> idx[k] < idx[l]
  }

  /** The loop: the values of the kept passes in order, or the first exception. */
  function FilterMap<T, U(==), E(==)>(step: T -> Result<Option<U>, E>, xs: seq<T>): (r: Result<seq<U>, E>)
    ensures r.Ok? <==> forall i :: 0 <= i < |xs| ==> step(xs[i]).Ok?
    ensures r.Ok? ==> |r.value| <= |xs|
    ensures r.Err? ==> exists i :: FirstFailure(step, xs, i) && step(xs[i]) == Err(r.error)
    decreases |xs|
  {
    if |xs| == 0 then Ok([])
    else
      var head :- step(xs[0]);
      var rest := FilterMap(step, xs[1..]);
      assert forall i :: 0 < i < |xs| ==> xs[1..][i - 1] == xs[i];
      if rest.Err? then
        var i :| FirstFailure(step, xs[1..], i) && step(xs[1..][i]) == Err(rest.error);
        assert FirstFailure(step, xs, i + 1);
        Err(rest.error)
      else
        Ok(if head.Some? then [head.value] + rest.value else rest.value)
  }

  /** `kept[k]` is the value produced by the pass at position `idx[k]`. */
  ghost predicate Produces<T, U, E>(step: T -> Result<Option<U>, E>, xs: seq<T>, kept: seq<U>, idx: seq<nat>) {
    && |idx| == |kept|
    && forall k :: 0 <= k < |idx| ==> idx[k] < |xs| && step(xs[idx[k]]) == Ok(Some(kept[k]))
  }

  /** `idx` holds exactly the kept positions of `xs`. */
  ghost predicate ListsKept<T, U, E>(step: T -> Result<Option<U>, E>, xs: seq<T>, idx: seq<nat>) {
    forall i :: 0 <= i < |xs| ==> (i in idx <==> Kept(step, xs, i))
  }

  /**
   * `idx` lists, in increasing order, exactly the positions of `xs` whose pass
   * was kept, and `kept[k]` is the value produced at position `idx[k]`.
   */
  ghost predicate Selects<T, U, E>(step: T -> Result<Option<U>, E>, xs: seq<T>, kept: seq<U>, idx: seq<nat>) {
    Produces(step, xs, kept, idx) && Increasing(idx) && ListsKept(step, xs, idx)
  }

  /** Every index moved one position to the right. */
  function Shift(idx: seq<nat>): (r: seq<nat>)
    ensures |r| == |idx| && forall k :: 0 <= k < |r| ==> r[k] == idx[k] + 1
  {
    seq(|idx|, k requires 0 <= k < |idx| => idx[k] + 1)
  }

  /** Shifting the rest's positions keeps each one pointing at the pass that produced its value. */
  lemma ShiftProduces<T, U, E>(step: T -> Result<Option<U>, E>, xs: seq<T>, kept: seq<U>, rest: seq<nat>)
    requires |xs| > 0 && Produces(step, xs[1..], kept, rest)
    ensures Produces(step, xs, kept, Shift(rest))
    ensures forall k :: 0 <= k < |rest| ==> Shift(rest)[k] > 0
  {
    var tail := xs[1..];
    var shifted := Shift(rest);
    forall k | 0 <= k < |shifted|
      ensures shifted[k] < |xs| && step(xs[shifted[k]]) == Ok(Some(kept[k]))
    {
      assert xs[shifted[k]] == tail[rest[k]];
    }
  }

  /** The shifted positions are exactly the kept ones after the first. */
  lemma ShiftListsKept<T, U, E>(step: T -> Result<Option<U>, E>, xs: seq<T>, rest: seq<nat>)
    requires |xs| > 0 && ListsKept(step, xs[1..], rest)
    ensures forall i :: 0 < i < |xs| ==> (i in Shift(rest) <==> Kept(step, xs, i))
    ensures 0 !in Shift(rest)
  {
    var tail := xs[1..];
    var shifted := Shift(rest);
    forall i | 0 < i < |xs|
      ensures i in shifted <==> Kept(step, xs, i)
    {
      assert tail[i - 1] == xs[i];
      assert Kept(step, xs, i) <==> Kept(step, tail, i - 1);
      if i - 1 in rest {
        var k :| 0 <= k < |rest| && rest[k] == i - 1;
        assert shifted[k] == i;
      }
      if i in shifted {
        var k :| 0 <= k < |shifted| && shifted[k] == i;
        assert rest[k] == i - 1;
      }
    }
  }

  /** Shifting, and then putting 0 in front, keeps positions increasing. */
  lemma ShiftIncreasing(rest: seq<nat>)
    requires Increasing(rest)
    ensures Increasing(Shift(rest)) && Increasing([0] + Shift(rest))
  {
  }

  /** One more pass in front: the selection of the rest, shifted, with position 0 if its pass was kept. */
  lemma SelectsCons<T, U, E>(step: T -> Result<Option<U>, E>, xs: seq<T>, keptRest: seq<U>, rest: seq<nat>)
    returns (idx: seq<nat>)
    requires |xs| > 0 && step(xs[0]).Ok?
    requires Selects(step, xs[1..], keptRest, rest)
    ensures Selects(step, xs, if step(xs[0]).value.Some? then [step(xs[0]).value.value] + keptRest else keptRest, idx)
  {
    var head := step(xs[0]).value;
    var shifted := Shift(rest);
    ShiftProduces(step, xs, keptRest, rest);
    ShiftListsKept(step, xs, rest);
    ShiftIncreasing(rest);
    if head.Some? {
      idx := [0] + shifted;
      var kept := [head.value] + keptRest;
      assert Produces(step, xs, kept, idx) by {
        forall k | 0 < k < |idx|
          ensures idx[k] == shifted[k - 1] && kept[k] == keptRest[k - 1]
        {
        }
      }
      assert ListsKept(step, xs, idx) by {
        assert Kept(step, xs, 0);
        forall i | 0 < i < |xs|
          ensures i in idx <==> i in shifted
        {
        }
      }
    } else {
      idx := shifted;
      assert ListsKept(step, xs, idx) by {
        assert !Kept(step, xs, 0);
      }
    }
  }

  /**
   * What the loop keeps is an order-preserving selection: `idx` names, for
   * each kept value, the position it came from, and lists every kept
   * position exactly once.
   */
  lemma {:induction false} FilterMapSelection<T, U, E>(step: T -> Result<Option<U>, E>, xs: seq<T>)
    returns (idx: seq<nat>)
    requires FilterMap(step, xs).Ok?
    ensures Selects(step, xs, FilterMap(step, xs).value, idx)
    decreases |xs|
  {
    if |xs| == 0 {
      idx := [];
    } else {
      var rest := FilterMapSelection(step, xs[1..]);
      idx := SelectsCons(step, xs, FilterMap(step, xs[1..]).value, rest);
    }
  }
}

=== FILE: text.dfy ===
/**
 * The few Python `str` operations the URL parser relies on, over `seq<char>`:
 * the `in` substring test, `strip(c)` and `split(c)` with a one-character
 * separator, and `c.join(parts)` as the inverse of `split`.
 */
module Text {

  /** `sub` sits in `s` starting at index `i`. */
  predicate OccursAt(s: string, sub: string, i: int) {
    0 <= i <= |s| - |sub| && s[i..i + |sub|] == sub
  }

  /** `sub in s`: some window of `s` spells out `sub`. */
  function Contains(s: string, sub: string): (r: bool)
    ensures r <==> exists i :: OccursAt(s, sub, i)
    decreases |s|
  {
    if |sub| > |s| then false
    else if s[..|sub|] == sub then
      assert OccursAt(s, sub, 0);
      true
    else
      var r := Contains(s[1..], sub);
      assert r ==> exists i :: OccursAt(s, sub, i) by {
        if r {
          var i :| OccursAt(s[1..], sub, i);
          assert s[i + 1..i + 1 + |sub|] == s[1..][i..i + |sub|];
          assert OccursAt(s, sub, i + 1);
        }
      }
      assert (exists i :: OccursAt(s, sub, i)) ==> r by {
        if exists i :: OccursAt(s, sub, i) {
          var i :| OccursAt(s, sub, i);
          assert i != 0;
          assert s[1..][i - 1..i - 1 + |sub|] == s[i..i + |sub|];
          assert OccursAt(s[1..], sub, i - 1);
        }
      }
      r
  }

  /** Every character of `s` is `c`. */
  predicate AllChar(s: string, c: char) {
    forall i :: 0 <= i < |s| ==> s[i] == c
  }

  /** `n` copies of `c`. */
  function Repeat(c: char, n: nat): (r: string)
    ensures |r| == n && AllChar(r, c)
  {
    if n == 0 then [] else [c] + Repeat(c, n - 1)
  }

  /** `s.lstrip(c)`: drops the longest prefix made only of `c`. */
  function TrimLeft(s: string, c: char): (r: string)
    ensures |r| <= |s| && r == s[|s| - |r|..]
    ensures AllChar(s[..|s| - |r|], c)
    ensures r == [] || r[0] != c
  {
    if |s| > 0 && s[0] == c then
      var r := TrimLeft(s[1..], c);
      assert s[..|s| - |r|] == [c] + s[1..][..|s[1..]| - |r|];
      r
    else s
  }

  /** `s.rstrip(c)`: drops the longest suffix made only of `c`. */
  function TrimRight(s: string, c: char): (r: string)
    ensures |r| <= |s| && r == s[..|r|]
    ensures AllChar(s[|r|..], c)
    ensures r == [] || r[|r| - 1] != c
  {
    if |s| > 0 && s[|s| - 1] == c then
      var r := TrimRight(s[..|s| - 1], c);
      assert s[|r|..] == s[..|s| - 1][|r|..] + [c];
      r
    else s
  }

  /**
   * `r` is what is left of `s` once both ends lose their runs of `c`: a slice
   * of `s` with only `c` around it, itself neither starting nor ending with `c`.
   */
  ghost predicate IsStripOf(s: string, c: char, r: string) {
    && (r == [] || (r[0] != c && r[|r| - 1] != c))
    && exists i :: OccursAt(s, r, i) && AllChar(s[..i], c) && AllChar(s[i + |r|..], c)
  }

  /** `s.strip(c)`. */
  function Strip(s: string, c: char): string {
    TrimRight(TrimLeft(s, c), c)
  }

  /** What `strip(c)` returns is a strip in the sense of `IsStripOf`. */
  lemma StripIsStrip(s: string, c: char)
    ensures IsStripOf(s, c, Strip(s, c))
  {
    StripOfTrims(s, c, TrimLeft(s, c), Strip(s, c));
  }

  /** Trimming the left run and then the right run leaves a strip. */
  lemma StripOfTrims(s: string, c: char, l: string, r: string)
    requires |l| <= |s| && l == s[|s| - |l|..] && AllChar(s[..|s| - |l|], c) && (l == [] || l[0] != c)
    requires |r| <= |l| && r == l[..|r|] && AllChar(l[|r|..], c) && (r == [] || r[|r| - 1] != c)
    ensures IsStripOf(s, c, r)
  {
    var i := |s| - |l|;
    assert r == s[i..i + |r|];
    assert s[i + |r|..] == l[|r|..];
    assert r == [] || r[0] == l[0];
    assert OccursAt(s, r, i);
  }

  /** Number of occurrences of `c` in `s`. */
  function Count(s: string, c: char): (n: nat)
    ensures n <= |s|
    ensures n == 0 <==> c !in s
  {
    if |s| == 0 then 0
    else (if s[0] == c then 1 else 0) + Count(s[1..], c)
  }

  /**
   * `s.split(c)` for a one-character separator: the maximal runs between
   * separators, so the empty string gives one empty part and adjacent
   * separators give empty parts.
   */
  function Split(s: string, c: char): (parts: seq<string>)
    ensures |parts| == Count(s, c) + 1
    ensures forall k :: 0 <= k < |parts| ==> c !in parts[k]
    decreases |s|
  {
    if |s| == 0 then [[]]
    else
      var rest := Split(s[1..], c);
      if s[0] == c then [[]] + rest
      else [[s[0]] + rest[0]] + rest[1..]
  }

  /** `c.join(parts)`. */
  function Join(parts: seq<string>, c: char): string
    decreases |parts|
  {
    if |parts| == 0 then []
    else if |parts| == 1 then parts[0]
    else parts[0] + [c] + Join(parts[1..], c)
  }

  /** Gluing a prefix onto the first part glues it onto the whole join. */
  lemma {:induction false} JoinPrepend(x: string, parts: seq<string>, c: char)
    requires |parts| > 0
    ensures Join([x + parts[0]] + parts[1..], c) == x + Join(parts, c)
  {
    var glued := [x + parts[0]] + parts[1..];
    assert glued[1..] == parts[1..];
  }

  /** Splitting on `c` and joining back with `c` gives the original string. */
  lemma {:induction false} JoinSplit(s: string, c: char)
    ensures Join(Split(s, c), c) == s
    decreases |s|
  {
    if |s| > 0 {
      var rest := Split(s[1..], c);
      JoinSplit(s[1..], c);
      if s[0] == c {
        var parts := [[]] + rest;
        assert parts[1..] == rest;
        assert Join(parts, c) == [] + [c] + Join(rest, c);
      } else {
        JoinPrepend([s[0]], rest, c);
      }
      assert s == [s[0]] + s[1..];
    }
  }

  /** Splitting a join of separator-free parts recovers the parts. */
  lemma {:induction false} SplitJoin(parts: seq<string>, c: char)
    requires |parts| > 0
    requires forall k :: 0 <= k < |parts| ==> c !in parts[k]
    ensures Split(Join(parts, c), c) == parts
    decreases |parts|, |parts[0]|
  {
    if |parts[0]| > 0 {
      var tail := [parts[0][1..]] + parts[1..];
      forall k | 0 <= k < |tail|
        ensures c !in tail[k]
      {
        if k > 0 { assert tail[k] == parts[k]; }
      }
      SplitJoin(tail, c);
      SplitJoinChar(parts, c);
    } else if |parts| > 1 {
      SplitJoin(parts[1..], c);
      SplitJoinEmpty(parts, c);
    }
  }

  /** The inductive step of `SplitJoin` when the first part starts with a character. */
  lemma SplitJoinChar(parts: seq<string>, c: char)
    requires |parts| > 0 && |parts[0]| > 0 && c !in parts[0]
    requires Split(Join([parts[0][1..]] + parts[1..], c), c) == [parts[0][1..]] + parts[1..]
    ensures Split(Join(parts, c), c) == parts
  {
    var ch := parts[0][0];
    var tail := [parts[0][1..]] + parts[1..];
    assert ch in parts[0];
    assert [ch] + tail[0] == parts[0];
    assert parts == [[ch] + tail[0]] + tail[1..];
    JoinPrepend([ch], tail, c);
    var s := Join(parts, c);
    assert s[0] == ch && s[1..] == Join(tail, c);
    SplitCons(s, c);
  }

  /** The inductive step of `SplitJoin` when the first part is empty. */
  lemma SplitJoinEmpty(parts: seq<string>, c: char)
    requires |parts| > 1 && parts[0] == []
    requires Split(Join(parts[1..], c), c) == parts[1..]
    ensures Split(Join(parts, c), c) == parts
  {
    var s := Join(parts, c);
    assert s == [c] + Join(parts[1..], c);
    SplitCons(s, c);
    assert s[1..] == Join(parts[1..], c);
  }

  /** One step of `Split` at the front of a non-empty string. */
  lemma SplitCons(s: string, c: char)
    requires |s| > 0
    ensures Split(s, c) == if s[0] == c then [[]] + Split(s[1..], c)
                           else [[s[0]] + Split(s[1..], c)[0]] + Split(s[1..], c)[1..]
  {
  }

  /** `AllChar` over a prefix, read back as a fact about the indices of `s`. */
  lemma AllCharPrefix(s: string, c: char, n: int)
    requires 0 <= n <= |s| && AllChar(s[..n], c)
    ensures forall j :: 0 <= j < n ==> s[j] == c
  {
    forall j | 0 <= j < n
      ensures s[j] == c
    {
      assert s[..n][j] == s[j];
    }
  }

  /** `AllChar` over a suffix, read back as a fact about the indices of `s`. */
  lemma AllCharSuffix(s: string, c: char, n: int)
    requires 0 <= n <= |s| && AllChar(s[n..], c)
    ensures forall j :: n <= j < |s| ==> s[j] == c
  {
    forall j | n <= j < |s|
      ensures s[j] == c
    {
      assert s[n..][j - n] == s[j];
    }
  }

  /** The strip is empty exactly when `s` is nothing but `c`. */
  lemma StripEmptyIff(s: string, c: char, r: string)
    requires IsStripOf(s, c, r)
    ensures r == [] <==> AllChar(s, c)
  {
    var i :| OccursAt(s, r, i) && AllChar(s[..i], c) && AllChar(s[i + |r|..], c);
    AllCharPrefix(s, c, i);
    AllCharSuffix(s, c, i + |r|);
    if r != [] {
      assert s[i] == r[0];
    }
  }

  /** A string has exactly one stripped form. */
  lemma StripUnique(s: string, c: char, r1: string, r2: string)
    requires IsStripOf(s, c, r1) && IsStripOf(s, c, r2)
    ensures r1 == r2
  {
    StripEmptyIff(s, c, r1);
    StripEmptyIff(s, c, r2);
    if r1 != [] {
      var i1 :| OccursAt(s, r1, i1) && AllChar(s[..i1], c) && AllChar(s[i1 + |r1|..], c);
      var i2 :| OccursAt(s, r2, i2) && AllChar(s[..i2], c) && AllChar(s[i2 + |r2|..], c);
      StripBounds(s, c, r1, i1);
      StripBounds(s, c, r2, i2);
      // The first character that is not `c` starts both slices, the last one ends both.
      assert i1 == i2 && |r1| == |r2|;
    }
  }

  /** A non-empty strip runs from the first character that is not `c` to the last one. */
  lemma StripBounds(s: string, c: char, r: string, i: int)
    requires r != [] && r[0] != c && r[|r| - 1] != c
    requires OccursAt(s, r, i) && AllChar(s[..i], c) && AllChar(s[i + |r|..], c)
    ensures r == s[i..i + |r|]
    ensures s[i] != c && s[i + |r| - 1] != c
    ensures forall j :: 0 <= j < i ==> s[j] == c
    ensures forall j :: i + |r| <= j < |s| ==> s[j] == c
  {
    AllCharPrefix(s, c, i);
    AllCharSuffix(s, c, i + |r|);
    assert s[i] == r[0] && s[i + |r| - 1] == r[|r| - 1];
  }

  /** Runs of `c` concatenated stay runs of `c`. */
  lemma AllCharConcat(a: string, b: string, c: char)
    requires AllChar(a, c) && AllChar(b, c)
    ensures AllChar(a + b, c)
  {
  }

  /** Surrounding a string with runs of `c` keeps its strip a strip. */
  lemma IsStripOfPadded(s: string, c: char, r: string, left: string, right: string)
    requires IsStripOf(s, c, r) && AllChar(left, c) && AllChar(right, c)
    ensures IsStripOf(left + s + right, c, r)
  {
    IsStripOfPadRight(s, c, r, right);
    IsStripOfPadLeft(s + right, c, r, left, left + s + right);
  }

  /** A run of `c` in front keeps a strip a strip. */
  lemma IsStripOfPadLeft(s: string, c: char, r: string, left: string, padded: string)
    requires IsStripOf(s, c, r) && AllChar(left, c) && padded == left + s
    ensures IsStripOf(padded, c, r)
  {
    var i :| OccursAt(s, r, i) && AllChar(s[..i], c) && AllChar(s[i + |r|..], c);
    var k := |left|;
    assert padded[k + i..k + i + |r|] == s[i..i + |r|];
    assert padded[k + i + |r|..] == s[i + |r|..];
    assert padded[..k + i] == left + s[..i];
    AllCharConcat(left, s[..i], c);
    assert OccursAt(padded, r, k + i);
  }

  /** A run of `c` behind keeps a strip a strip. */
  lemma IsStripOfPadRight(s: string, c: char, r: string, right: string)
    requires IsStripOf(s, c, r) && AllChar(right, c)
    ensures IsStripOf(s + right, c, r)
  {
    var padded := s + right;
    var i :| OccursAt(s, r, i) && AllChar(s[..i], c) && AllChar(s[i + |r|..], c);
    assert padded[i..i + |r|] == s[i..i + |r|];
    assert padded[..i] == s[..i];
    assert padded[i + |r|..] == s[i + |r|..] + right;
    AllCharConcat(s[i + |r|..], right, c);
    assert OccursAt(padded, r, i);
  }

  /** Extra runs of `c` around a string do not change what `strip(c)` returns. */
  lemma StripPadded(s: string, c: char, k: nat, m: nat)
    ensures Strip(Repeat(c, k) + s + Repeat(c, m), c) == Strip(s, c)
  {
    var padded := Repeat(c, k) + s + Repeat(c, m);
    StripIsStrip(s, c);
    StripIsStrip(padded, c);
    IsStripOfPadded(s, c, Strip(s, c), Repeat(c, k), Repeat(c, m));
    StripUnique(padded, c, Strip(padded, c), Strip(s, c));
  }
}

=== FILE: visualization.dfy ===
/**
 * `process_visualization`: checks that a dashboard visualization names a query
 * and extracts what is needed to fetch its data. The `options` of a
 * visualization may arrive as a JSON document inside a string; `json.loads` is
 * the `parse` parameter, `None` standing for a document it rejects.
 */
module Visualization {
  import opened Wrappers
  import opened PyJson

  /** The tuple `(query_id, parameters, options, columns, viz_info)`. */
  datatype Processed = Processed(
    queryId: Json,
    parameters: Json,
    options: Json,
    columns: seq<string>,
    vizInfo: Json)

  /** `visualization.get('query_details', {})` of a dict. */
  function QueryDetails(viz: Json): Json
    requires viz.Obj?
  {
    ValueOr(viz.fields, "query_details", EmptyObj)
  }

  /** `query_details.get('query_id')` of a dict. */
  function QueryId(details: Json): Json
    requires details.Obj?
  {
    ValueOr(details.fields, "query_id", Null)
  }

  /** The `options` after a string has been decoded, a rejected string becoming `{}`. */
  function DecodeOptions(raw: Json, parse: string -> Option<Json>): (options: Json)
    ensures !raw.Str? ==> options == raw
    ensures raw.Str? && parse(raw.s).None? ==> options == EmptyObj
    ensures raw.Str? && parse(raw.s).Some? ==> options == parse(raw.s).value
  {
    if raw.Str? then
      match parse(raw.s)
      case Some(decoded) => decoded
      case None => EmptyObj
    else raw
  }

  /** The decoded options of a dict visualization, `{}` when it has none. */
  function OptionsOf(viz: Json, parse: string -> Option<Json>): Json
    requires viz.Obj?
  {
    DecodeOptions(ValueOr(viz.fields, "options", EmptyObj), parse)
  }

  /** `options.get('columnMapping', {})` of a dict. */
  function ColumnMapping(options: Json): Json
    requires options.Obj?
  {
    ValueOr(options.fields, "columnMapping", EmptyObj)
  }

  /** One of the three early `return None` guards fires. */
  predicate Rejected(viz: Json) {
    || !Truthy(viz)
    || (viz.Obj? && !Truthy(QueryDetails(viz)))
    || (viz.Obj? && QueryDetails(viz).Obj? && !Truthy(QueryId(QueryDetails(viz))))
  }

  /** Every value the code calls `.get` or `.keys` on is a dict, so nothing raises. */
  predicate WellShaped(viz: Json, parse: string -> Option<Json>) {
    && viz.Obj?
    && QueryDetails(viz).Obj?
    && OptionsOf(viz, parse).Obj?
    && (Truthy(ColumnMapping(OptionsOf(viz, parse))) ==> ColumnMapping(OptionsOf(viz, parse)).Obj?)
  }

  /** `list(column_mapping.keys())` when the mapping is truthy, `[]` otherwise. */
  function ColumnNames(mapping: Json): (r: Result<seq<string>, Fault>)
    ensures r.Err? <==> Truthy(mapping) && !mapping.Obj?
    ensures r.Ok? && mapping.Obj? ==> r.value == Keys(mapping.fields)
    ensures r.Ok? && !Truthy(mapping) ==> r.value == []
  {
    if !Truthy(mapping) then Ok([])
    else if mapping.Obj? then Ok(Keys(mapping.fields))
    else Err(AttributeError)
  }

  /** The `viz_info` dict: the visualization's `id`, `type` and `name`, `None` when absent. */
  function VizInfo(viz: Json): (info: Json)
    requires viz.Obj?
    ensures info.Obj?
    ensures KeyColumn(info.fields) == ["visualization_id", "visualization_type", "visualization_name"]
    ensures Lookup(info.fields, "visualization_id") == Some(ValueOr(viz.fields, "id", Null))
    ensures Lookup(info.fields, "visualization_type") == Some(ValueOr(viz.fields, "type", Null))
    ensures Lookup(info.fields, "visualization_name") == Some(ValueOr(viz.fields, "name", Null))
  {
    var fields := [
      ("visualization_id", ValueOr(viz.fields, "id", Null)),
      ("visualization_type", ValueOr(viz.fields, "type", Null)),
      ("visualization_name", ValueOr(viz.fields, "name", Null))
    ];
    LookupAt(fields, 0);
    LookupAt(fields, 1);
    LookupAt(fields, 2);
    Obj(fields)
  }

  /**
   * `process_visualization(visualization)`: `Ok(None)` for Python's `None`,
   * `Err` when a `.get` or `.keys` would raise.
   */
  function ProcessVisualization(viz: Json, parse: string -> Option<Json>): (r: Result<Option<Processed>, Fault>)
    // `None` exactly when one of the guards fires
    ensures r == Ok(None) <==> Rejected(viz)
    // a tuple exactly when no guard fires and nothing raises
    ensures r.Ok? && r.value.Some? <==> !Rejected(viz) && WellShaped(viz, parse)
    ensures r.Ok? && r.value.Some? ==>
      var p := r.value.value;
      var details := QueryDetails(viz);
      && Truthy(p.queryId)
      && p.queryId == QueryId(details)
      // parameters: the stored value, or [] when there is none
      && (HasKey(details.fields, "parameters") ==> LastBinding(details.fields, "parameters", p.parameters))
      && (!HasKey(details.fields, "parameters") ==> p.parameters == Arr([]))
      // options: decoded, and always a dict once processing succeeds
      && p.options == OptionsOf(viz, parse)
      && p.options.Obj?
      && (!HasKey(viz.fields, "options") ==> p.options == EmptyObj)
      // columns: the mapping's keys in insertion order, [] when the mapping is absent or empty
      && (!HasKey(p.options.fields, "columnMapping") ==> p.columns == [])
      && (ColumnMapping(p.options).Obj? ==> p.columns == Keys(ColumnMapping(p.options).fields))
      && (!Truthy(ColumnMapping(p.options)) ==> p.columns == [])
      && p.vizInfo == VizInfo(viz)
  {
    if !Truthy(viz) then Ok(None)
    else
      var details :- Get(viz, "query_details", EmptyObj);
      if !Truthy(details) then Ok(None)
      else
        var queryId :- Get(details, "query_id", Null);
        // `details` is a dict from here on, so these `.get` calls cannot raise
        var parameters := ValueOr(details.fields, "parameters", Arr([]));
        if !Truthy(queryId) then Ok(None)
        else
          var info := VizInfo(viz);
          var raw := ValueOr(viz.fields, "options", EmptyObj);
          var options := DecodeOptions(raw, parse);
          var mapping :- Get(options, "columnMapping", EmptyObj);
          var columns :- ColumnNames(mapping);
          Ok(Some(Processed(queryId, parameters, options, columns, info)))
  }

  /** An `options` string that does not decode leaves a visualization without columns. */
  lemma UndecodableOptionsGiveNoColumns(viz: Json, parse: string -> Option<Json>)
    requires viz.Obj? && HasKey(viz.fields, "options")
    requires ValueOr(viz.fields, "options", EmptyObj).Str?
    requires parse(ValueOr(viz.fields, "options", EmptyObj).s).None?
    requires !Rejected(viz) && QueryDetails(viz).Obj?
    ensures ProcessVisualization(viz, parse).Ok?
    ensures var p := ProcessVisualization(viz, parse).value;
      p.Some? && p.value.options == EmptyObj && p.value.columns == []
  {
  }
}

=== FILE: wrappers.dfy ===
/** Failure-compatible wrappers used throughout the model. */
module Wrappers {

  /** Python's "value or None". */
  datatype Option<+T> = None | Some(value: T)

  /** A computation that either yields a value or raises an exception. */
  datatype Result<+R, +E> = Ok(value: R) | Err(error: E) {

    predicate IsFailure() {
      Err?
    }

    function PropagateFailure<U>(): Result<U, E>
      requires Err?
    {
      Err(error)
    }

    function Extract(): R
      requires Ok?
    {
      value
    }
  }
}
